=== FILE: README.md ===
# docker-csi-proxy, modelled in Dafny

docker-csi-proxy is a Docker volume plugin that forwards volume requests to
Container Storage Interface (CSI) drivers. Each driver is configured under an
alias. The proxy pulls the driver's image on first use, unpacks it into a
root filesystem and starts it under `chroot`. It then waits for the driver's
Unix socket before it issues CSI calls for the volume.

The model covers four parts of the proxy:

- the volume registry and the plugin handlers (`Create`, `Remove`, `Get`,
  `List`, `Mount`, `Unmount`, `Path`, `Capabilities`), including Create's
  option/secret merge and the `secret-` prefix partition of `parseOptions`;
- the driver bring-up supervisor (`ensurePluginRunning`, `ActivateAll`): the
  idempotent active set, the download-once rule, the chrooted argv and the
  socket paths, and the bounded readiness poll;
- the CSI request builders of the client;
- `SocketFor` and the node identity rule of the configuration loader.

Every handler is one atomic step written as a pure function. It returns a
`Reply` holding four things:

- the new driver state;
- the result;
- the host effects attempted by a driver bring-up;
- the CSI calls issued, each with the endpoint it was sent to.

Outcomes that the proxy does not decide are parameters:

- the driver's answer to each RPC (`Csi.Backend`);
- the outcome of each host effect and the presence of a socket at each poll
  (`Host.Oracle`);
- the environment and the host name.

Time is an integer clock in milliseconds. Poll `k` happens `k * 100` ms after
launch. A missing socket after 5000 ms is a timeout, so the poll runs at most
52 times. The only filesystem state is the set of directories known to exist.
It is enough to observe the skip-the-download-when-the-rootfs-exists rule.

Modules, in dependency order:

| file | module | models |
|---|---|---|
| results.dfy | Results | the `Result` type |
| paths.dfy | Paths | `filepath.Join`/`path.Join` on clean elements |
| configuration.dfy | Configuration | pkg/config/config.go |
| csi.dfy | Csi | pkg/csi/client.go |
| host.dfy | Host | the host effects of pkg/plugin/manager.go |
| manager.dfy | PluginManager | pkg/plugin/manager.go |
| options.dfy | Options | the merge in `Create` and `parseOptions` |
| plugin.dfy | VolumePlugin | the handlers of pkg/plugin/plugin.go |
| lifecycle.dfy | Lifecycle | properties across several handler calls |

Some behaviours of the code are easy to miss:

- Create records the volume before it sends `CreateVolume`, so the record
  stays when the driver refuses the volume.
- Remove drops the record before it sends `DeleteVolume`, whatever the
  driver answers.
- A request key that names a configured secret overrides the secret. A
  default option under the same key is still sent among the options.
- The node identity can come from a `NodeID` key in the configuration file.
  The struct field has no JSON tag, so the decoder fills it. It is used when
  no environment variable is configured and the key is non-empty.

The Go sources do not build as written:

- plugin.go calls `newManager`, `EnsureRunning` and `client.SetEndpoint`;
- manager.go defines `NewManager` and `ensurePluginRunning`;
- the client has no `SetEndpoint`.

The model takes the evident intent. The handler brings the driver up with
`ensurePluginRunning`. The shared client is then pointed at `SocketFor(alias)`,
recorded as the driver's `target`, and every later call goes there.

An alias missing from the configuration makes the Go code dereference a nil
driver configuration. The model reports it as the error
`PluginManager.Error.UnknownAlias` instead.

## Model

| member | source | states |
|---|---|---|
| Configuration.SocketFor | pkg/config/config.go:55-57 | The endpoint always starts with `unix://`. For a plain alias it ends with `/<alias>.sock`. For a directory without a trailing slash it is exactly `unix://<dir>/<alias>.sock`. |
| Configuration.SocketForInjective | pkg/config/config.go:55-57 | Two plain aliases with the same endpoint are the same alias, so no two drivers share a client socket. |
| Configuration.WithNodeId | pkg/config/config.go:43-50 | Only the node identity changes. A configured environment variable with a non-empty value wins. If that value is empty, the host name is used. With no variable configured, the file's identity is kept when non-empty, otherwise the host name is used. The identity is empty only when the host name is. |
| Csi.Invoke | pkg/csi/client.go:28-88 | Every client method succeeds exactly when the RPC does and returns the remote status unchanged. |
| Csi.CreateVolume | pkg/csi/client.go:28-37 | The request carries the name and the parameters unchanged, and exactly one capability: ext4 mount access. |
| Csi.DeleteVolume | pkg/csi/client.go:39-42 | The request names the given volume id. |
| Csi.NodeStageVolume | pkg/csi/client.go:44-61 | Volume id, staging target, volume context and secrets are forwarded unchanged. The capability is ext4 mount access. |
| Csi.NodePublishVolume | pkg/csi/client.go:63-80 | The target is `<parent>/mount` and the staging target is `<parent>/staging`, and the two always differ. The volume context is forwarded, no secrets are sent, and the capability is ext4 mount access. |
| Csi.NodeUnpublishVolume | pkg/csi/client.go:82-88 | The request carries the volume id and the given target path. |
| Host.Perform | pkg/plugin/manager.go:56-115 | Effects run in order and stop at the first failure. The attempted effects are a prefix of the plan. Every effect before the last succeeded. On failure the last effect failed with the cause reported. Directories only accumulate. Each new one was named by a MakeDirs effect that was attempted and succeeded. |
| PluginManager.NewManager | pkg/plugin/manager.go:26-31 | A new manager has no active alias. |
| PluginManager.RootfsPath | pkg/plugin/manager.go:50-51 | For a plain alias the plugin directory is `/plugins/<alias>` and the root filesystem is `/plugins/<alias>/rootfs`. |
| PluginManager.ChrootSocketPath | pkg/plugin/manager.go:52 | Inside the chroot the driver's socket is `/run/<alias>.sock`. |
| PluginManager.PolledSocketPath | pkg/plugin/manager.go:53 | The manager polls `/plugins/<alias>/rootfs/run/<alias>.sock`. |
| PluginManager.LaunchLayout | pkg/plugin/manager.go:50-96 | The driver is started as `chroot <rootfs> /<binPath> --nodeid <id> --endpoint unix:///run/<alias>.sock --drivername <name>`, followed by the start command in order. The polled path is the root filesystem joined with the socket path given to the driver. |
| PluginManager.AwaitSocket | pkg/plugin/manager.go:117-127 | The poll returns the first poll index at which the socket exists. A timeout happens only after every poll up to the first one past the deadline found no socket. |
| PluginManager.WaitForSocket | pkg/plugin/manager.go:117-127 | The stat/clock/sleep loop terminates. It agrees with `AwaitSocket`. It reports ready iff the socket exists at one of polls 0..51. A timeout comes after more than 5000 ms and at most 5100 ms. |
| PluginManager.BringupSteps | pkg/plugin/manager.go:56-113 | Bring-up ends with the launch. With a root filesystem present it pulls, exports and unpacks nothing. Without one, it first pulls the configured image. |
| PluginManager.AwaitLaunch | pkg/plugin/manager.go:117-129 | After the launch, the alias becomes active iff its socket is seen at some poll up to the deadline. Otherwise the error names the polled path. The effects and the directories stay as they were. |
| PluginManager.Start | pkg/plugin/manager.go:49-129 | Bringing up a configured, inactive alias adds it to the active set only on success. A success performed the whole bring-up plan and saw the socket in time. The effects attempted are a non-empty prefix of the plan. Directories only accumulate, and each new one was named by a MakeDirs effect that was attempted and succeeded, so a failed pull leaves no root filesystem behind. A failure is either a host failure, whose effect is the last one attempted and failed with the cause reported, or a timeout on the polled socket path. Every effect before the last succeeded, so a host failure is the first effect that failed. A timeout comes only after the launch, when no poll up to the deadline saw the socket. |
| PluginManager.EnsurePluginRunning | pkg/plugin/manager.go:43-131 | An already active alias returns success with no effect and no state change. The alias is active afterwards iff the call succeeded, and nothing else joins the active set. A success for a new alias launched the driver last and saw its socket at some poll up to the deadline. An unknown alias fails with no effect. A configured alias fails only with a host failure of its last effect or a timeout on its polled socket path. Every effect before the last succeeded, so a host failure is the first effect that failed. A timeout comes only after the launch, when no poll up to the deadline saw the socket. Directories only accumulate, and each new one was made by a MakeDirs effect of this call that succeeded. Every effect attempted is a prefix of the bring-up plan. |
| PluginManager.DownloadOnlyWithoutRootfs | pkg/plugin/manager.go:55-81 | Pull, export and unpack happen only when the root filesystem directory is missing. In that case the pull comes first. |
| PluginManager.DownloadStepsShape | pkg/plugin/manager.go:56-113 | Without a root filesystem there are nine effects. The unpack is the only unpack and comes right after the root filesystem directory is made. |
| PluginManager.UnpackFailureLeavesRootfs | pkg/plugin/manager.go:75-80 | When the unpack fails, the root filesystem directory already exists. |
| PluginManager.PartialUnpackIsNotRetried | pkg/plugin/manager.go:56-81 | After a failed unpack the next bring-up of the same alias skips the download and launches from the partial tree. |
| PluginManager.EnsureIsIdempotent | pkg/plugin/manager.go:44-48 | After a successful bring-up, every later call succeeds with no effect and no state change. |
| PluginManager.ActivateEach | pkg/plugin/manager.go:33-41 | Bringing up a list of aliases succeeds iff all of them end up active. A failure names an alias of the list that is not active and wraps its error. For a configured alias the wrapped error is a host failure or a timeout on that alias's polled socket; for an unconfigured one it is `UnknownAlias` of that alias. A wrapped host failure names the last effect attempted, which failed with the reported cause. A wrapped timeout means that alias's socket was not seen by the deadline. Only listed aliases join the active set. |
| PluginManager.ActivateEachStopsAtFailure | pkg/plugin/manager.go:35-38 | On failure, every alias before the failing one is active and no alias after it has joined the active set. |
| PluginManager.ActivateEachEndsAtFailure | pkg/plugin/manager.go:35-38 | A failed run is exactly the run over the aliases up to and including the failing one. The aliases after it add no effect, no directory and no activation. |
| PluginManager.ActivateAll | pkg/plugin/manager.go:33-41 | For any enumeration of the configured aliases, the result is success iff every configured driver is active. A failure names a configured alias and wraps a host failure or a timeout on that alias's polled socket. A wrapped host failure names the last effect attempted, which failed with the reported cause. A wrapped timeout means that alias's socket was not seen by the deadline. Only configured aliases are ever activated. |
| Options.Merge | pkg/plugin/plugin.go:62-88 | A request key, other than `driver`, that names a configured secret sets that secret. Any other request key sets an option. Defaults that are not overridden keep their values, and `driver` is never copied. The secret keys are exactly the configured ones. |
| Options.MergedAfterStep | pkg/plugin/plugin.go:76-88 | One iteration of the override loop skips `driver`, updates a configured secret, or updates an option. |
| Options.MergeInOrder | pkg/plugin/plugin.go:66-88 | The copy-then-override loops, visiting the request keys in any order, produce exactly `Merge`. |
| Options.ParseOptions | pkg/plugin/plugin.go:197-209 | Keys without the `secret-` prefix go to the volume context unchanged. Prefixed keys go to the secrets with the prefix removed. Every secret comes from its prefixed key. |
| Options.ParseOptionsRoundTrip | pkg/plugin/plugin.go:197-209 | Putting the prefix back on the secrets and adding the volume context gives back the input. |
| Options.StripPreservesSize | pkg/plugin/plugin.go:201-203 | Removing the prefix from distinct prefixed keys yields as many distinct secret names. |
| Options.ParseOptionsPartitions | pkg/plugin/plugin.go:197-209 | The sizes of volume context and secrets add up to the size of the input. |
| VolumePlugin.NewVolumeDriver | pkg/plugin/plugin.go:36-48 | A new driver has no volumes and no active alias, so it satisfies the state invariant. |
| VolumePlugin.Create | pkg/plugin/plugin.go:50-123 | Without a `driver` option the call fails and changes nothing. A CSI call is made iff the option is present and the bring-up succeeds. In that case the volume is recorded, unstaged, with the merged maps. The client is retargeted to `SocketFor(alias)`, and a single CreateVolume with the merged options goes there. Success iff that RPC succeeds, and its error is passed through. With a `driver` option, the manager state, the directories and the host effects are those of the bring-up. A failed bring-up's error is returned unchanged as `DriverUnavailable`. Only configured aliases become active. |
| VolumePlugin.Remove | pkg/plugin/plugin.go:125-130 | The name is dropped from the registry, and every other entry is untouched. Exactly one DeleteVolume is sent. The result is that RPC's outcome. |
| VolumePlugin.Get | pkg/plugin/plugin.go:132-140 | Succeeds iff the name is registered, reporting it with an empty mount point. Otherwise it fails with "does not exist". |
| VolumePlugin.List | pkg/plugin/plugin.go:142-151 | Lists exactly the registered names, each with an empty mount point. |
| VolumePlugin.Mount | pkg/plugin/plugin.go:153-181 | An unknown name fails with no call and no change. Only the named volume's staged flag may change, and no effect is attempted. Success returns `/data/<name>/mount`. |
| VolumePlugin.MountCalls | pkg/plugin/plugin.go:153-181 | Mount makes at most two calls, both to the endpoint the client points at and both about this volume. A failure of a registered volume carries the status of the last call. |
| VolumePlugin.MountStagingRules | pkg/plugin/plugin.go:159-176 | NodeStageVolume is issued iff the volume is registered and not yet staged. The flag becomes set only by a successful stage. A publish is issued iff the volume was staged or the stage succeeded. Mount succeeds iff its publish does. |
| VolumePlugin.MountRequests | pkg/plugin/plugin.go:162-176 | The stage carries the volume's options and secrets and targets `/data/<name>/staging`. The publish has parent `/data/<name>`, targets the mount point, and has the same staging path the client derives. |
| VolumePlugin.Unmount | pkg/plugin/plugin.go:183-186 | The registry is untouched, so the staged flag is never reset. A single NodeUnpublishVolume for `/data/<name>` is sent, and its outcome is returned. |
| VolumePlugin.Path | pkg/plugin/plugin.go:188-191 | The reported path is `/var/lib/docker-volumes/` followed by the name, whether or not the volume exists. |
| VolumePlugin.Capabilities | pkg/plugin/plugin.go:193-195 | The scope is `local`. |
| Lifecycle.MergeExample | pkg/plugin/plugin.go:66-88 | Defaults `{a: 1}` and secret `{s: x}` with request `{a: 2, s: y, driver: alias}` give options `{a: 2}` and secrets `{s: y}`. |
| Lifecycle.CreateRecordsBeforeRpc | pkg/plugin/plugin.go:93-122 | When the `driver` option is present and the bring-up succeeds, the registry after Create is the same whether CreateVolume succeeds or fails. It holds the volume, unstaged. |
| Lifecycle.RemoveForgets | pkg/plugin/plugin.go:125-140 | After Remove, Get fails for that name and List omits it, whatever DeleteVolume answered. |
| Lifecycle.GetAgreesWithList | pkg/plugin/plugin.go:132-151 | A volume is listed iff Get returns it. |
| Lifecycle.RemountOnlyPublishes | pkg/plugin/plugin.go:166-176 | After a successful Mount, a second Mount only publishes. So does a Mount after Unmount. |
| Lifecycle.CreateOnRunningDriver | pkg/plugin/plugin.go:50-123 | With the driver already active and an accepting driver, Create succeeds with no host effect. It issues one CreateVolume to the alias's endpoint and records the volume unstaged. |
| Lifecycle.MountUnstaged | pkg/plugin/plugin.go:153-181 | An unstaged volume with an accepting driver is staged and then published, both calls going to the current endpoint. |
| Lifecycle.UnmountThenRemove | pkg/plugin/plugin.go:125-186 | With an accepting driver, Unmount sends one NodeUnpublishVolume and Remove one DeleteVolume, both to the current endpoint. Afterwards the volume is unknown. |
| Lifecycle.CreateMountUnmountRemove | pkg/plugin/plugin.go:50-186 | With the driver already running and a backend that accepts every call, Create, Mount, Unmount and Remove all succeed. They issue CreateVolume, then stage and publish, then unpublish, then delete, all to the alias's endpoint. Afterwards the volume is unknown. |
| Lifecycle.UnmountTargetIsNotMountPoint | pkg/plugin/plugin.go:183-186 | Unmount unpublishes `/data/<name>`, never the mount point `/data/<name>/mount` that Mount published. |
| Lifecycle.PathIsNotMountPoint | pkg/plugin/plugin.go:188-191 | The path reported by Path is never the mount point Mount returns. |
| Lifecycle.DialsPolledSocketOnlyFromRunDir | pkg/config/config.go:55-57 | The client's endpoint equals the socket the manager polls only when the endpoint directory is `/plugins/<alias>/rootfs/run`. |
| Lifecycle.EndpointDirServesOneAlias | pkg/config/config.go:55-57 | No endpoint directory reaches the launched drivers of two different aliases. |

## Left out

- Image pull and export (crane), tar/gzip unpacking (`unpackTar`), `os.Stat`,
  `MkdirAll`, `OpenFile`, log redirection and process launch: host I/O. Each
  is an effect whose outcome comes from `Host.Oracle`. The unpack is one
  effect that may fail part-way.
- Host.Oracle: the outcome of an effect depends on the effect alone, so under
  one oracle two identical effects (for example two aliases pulling the same
  image within one `ActivateAll`) both succeed or both fail. `Made` records
  only the directory a `MkdirAll` names, not the missing parents it also
  creates. No stated property depends on either choice.
- Create's creation of `/data/<name>`, `/data/<name>/staging` and
  `/data/<name>/mount`, and NewVolumeDriver's creation of `/data`: host I/O
  whose failure ends the process with `log.Fatal`. These directories are not
  part of the driver's state.
- The gRPC transport and `NewClient` dialling: foreign library calls. Each
  RPC's answer comes from `Csi.Backend`.
- Locking, the unlocked read of the staged flag, and concurrent handlers
  retargeting the shared client: concurrency. Every handler is one atomic
  step.
- `time.Now` and `time.Sleep`: replaced by the integer poll clock. Time spent
  in `os.Stat` is not counted.
- JSON decoding and file reading in `LoadConfig`, and the `MkdirAll` of the
  endpoint directory: I/O. The parsed configuration, the environment and the
  host name are inputs.
- main.go: entry-point wiring and socket serving.
- The progress messages printed to stdout: output only.
- Go's iteration order over maps in `ActivateAll`, `List` and the merge
  loops: `ActivateAll` takes the order as a parameter, `List` returns a set,
  and `MergeInOrder` picks keys in any order.
- Paths.Join: joins with a single separator and does not perform Go's lexical
  cleaning of `.`, `..` or repeated separators. The path properties are stated
  for plain names.
- PluginManager.EnsurePluginRunning: an alias missing from the configuration
  is reported as `UnknownAlias`, where the Go code dereferences a nil
  configuration and panics.
- PluginManager.ActivateAll: the wrapped error is kept as a value (alias and
  inner error), not as the formatted message text of `%w`.
- VolumePlugin.Create: requires that only configured aliases are active, the
  invariant every handler keeps. Under it, a request naming an unknown alias
  fails in the bring-up.

=== FILE: configuration.dfy ===
/** The proxy's static configuration: per-alias driver definitions, the
    directory of client sockets, and the node identity chosen at load time. */
module Configuration {
  import opened Paths

  /** One configured CSI driver, keyed by its alias in `Config.drivers`. */
  datatype DriverConfig = DriverConfig(
    image: string,
    driverName: string,
    options: map<string, string>,
    secrets: map<string, string>,   // the keys form the driver's secret-key set
    startCommand: seq<string>,
    binPath: string)                // path of the driver binary inside the image

  datatype Config = Config(
    csiEndpointDir: string,
    nodeIdEnvVar: string,
    nodeId: string,
    drivers: map<string, DriverConfig>)

  const SocketScheme := "unix://"

  /** The CSI endpoint the proxy dials for `alias`. */
  function SocketFor(c: Config, alias: string): (r: string)
    ensures SocketScheme <= r
    ensures Segment(alias) ==> EndsWith(r, "/" + alias + ".sock") || r == SocketScheme + alias + ".sock"
    ensures c.csiEndpointDir != "" && c.csiEndpointDir[|c.csiEndpointDir| - 1] != '/' && Segment(alias)
            ==> r == SocketScheme + c.csiEndpointDir + "/" + alias + ".sock"
  {
    var sock := alias + ".sock";
    var r := SocketScheme + Join(c.csiEndpointDir, sock);
    assert Segment(alias) ==> EndsWith(r, "/" + alias + ".sock") || r == SocketScheme + alias + ".sock" by {
      if Segment(alias) {
        assert sock[0] == alias[0];
        assert "/" + alias + ".sock" == "/" + sock;
        JoinEndsWithElement(c.csiEndpointDir, sock);
        if c.csiEndpointDir != "" {
          EndsWithExtend(SocketScheme, Join(c.csiEndpointDir, sock), "/" + sock);
        }
      }
    }
    assert c.csiEndpointDir != "" && c.csiEndpointDir[|c.csiEndpointDir| - 1] != '/' && Segment(alias)
           ==> r == SocketScheme + c.csiEndpointDir + "/" + alias + ".sock" by {
      if c.csiEndpointDir != "" && c.csiEndpointDir[|c.csiEndpointDir| - 1] != '/' && Segment(alias) {
        assert sock[0] == alias[0];
        JoinPlain(c.csiEndpointDir, sock);
      }
    }
    r
  }

  /** For a plain alias the endpoint is the scheme, the directory's join
      prefix, and the socket file name. */
  lemma SocketForPlain(c: Config, alias: string)
    requires Segment(alias)
    ensures SocketFor(c, alias) == SocketScheme + JoinPrefix(c.csiEndpointDir) + alias + ".sock"
  {
    var sock := alias + ".sock";
    assert sock[0] == alias[0];
    JoinRelative(c.csiEndpointDir, sock);
    assert SocketFor(c, alias) == SocketScheme + (JoinPrefix(c.csiEndpointDir) + sock);
  }

  /** Two aliases that are plain path elements never share a socket. */
  lemma {:induction false} SocketForInjective(c: Config, a: string, b: string)
    requires Segment(a) && Segment(b)
    requires SocketFor(c, a) == SocketFor(c, b)
    ensures a == b
  {
    SocketForPlain(c, a);
    SocketForPlain(c, b);
    CancelAround(SocketScheme + JoinPrefix(c.csiEndpointDir), a, b, ".sock");
  }

  /** os.Getenv: an unset variable reads as the empty string. */
  function Getenv(env: map<string, string>, name: string): string {
    if name in env then env[name] else ""
  }

  /** The node identity step of LoadConfig applied to the parsed file:
      the configured environment variable wins when it is set and non-empty;
      an empty identity falls back to the host name. */
  function WithNodeId(parsed: Config, env: map<string, string>, hostname: string): (c: Config)
    ensures c == parsed.(nodeId := c.nodeId)
    ensures parsed.nodeIdEnvVar != "" && Getenv(env, parsed.nodeIdEnvVar) != ""
            ==> c.nodeId == Getenv(env, parsed.nodeIdEnvVar)
    ensures parsed.nodeIdEnvVar != "" && Getenv(env, parsed.nodeIdEnvVar) == "" ==> c.nodeId == hostname
    ensures parsed.nodeIdEnvVar == "" && parsed.nodeId != "" ==> c.nodeId == parsed.nodeId
    ensures parsed.nodeIdEnvVar == "" && parsed.nodeId == "" ==> c.nodeId == hostname
    ensures c.nodeId == "" ==> hostname == ""
  {
    var fromEnv := if parsed.nodeIdEnvVar != "" then parsed.(nodeId := Getenv(env, parsed.nodeIdEnvVar)) else parsed;
    if fromEnv.nodeId == "" then fromEnv.(nodeId := hostname) else fromEnv
  }

}

=== FILE: csi.dfy ===
/** The CSI client: how each domain call is turned into a CSI request, and
    how the remote outcome is reported back. The gRPC transport is an oracle
    (`Backend`) that answers each call. */
module Csi {
  import opened Results
  import opened Paths

  datatype AccessType = MountAccess(fsType: string) | BlockAccess
  datatype VolumeCapability = VolumeCapability(accessType: AccessType)

  /** The single filesystem type the client ever requests. */
  const FsType := "ext4"
  const MountCapability := VolumeCapability(MountAccess(FsType))

  datatype Request =
    | CreateVolumeRequest(name: string, parameters: map<string, string>,
                          volumeCapabilities: seq<VolumeCapability>)
    | DeleteVolumeRequest(volumeId: string)
    | NodeStageVolumeRequest(volumeId: string, stagingTargetPath: string,
                             volumeCapability: VolumeCapability,
                             volumeContext: map<string, string>, secrets: map<string, string>)
    | NodePublishVolumeRequest(volumeId: string, targetPath: string, stagingTargetPath: string,
                               volumeCapability: VolumeCapability,
                               volumeContext: map<string, string>, secrets: map<string, string>)
    | NodeUnpublishVolumeRequest(volumeId: string, targetPath: string)

  /** Which RPC a request is for. */
  datatype Rpc = CreateVolumeRpc | DeleteVolumeRpc | NodeStageRpc | NodePublishRpc | NodeUnpublishRpc

  function RpcOf(req: Request): Rpc {
    match req
    case CreateVolumeRequest(_, _, _) => CreateVolumeRpc
    case DeleteVolumeRequest(_) => DeleteVolumeRpc
    case NodeStageVolumeRequest(_, _, _, _, _) => NodeStageRpc
    case NodePublishVolumeRequest(_, _, _, _, _, _) => NodePublishRpc
    case NodeUnpublishVolumeRequest(_, _) => NodeUnpublishRpc
  }

  /** The volume a request is about. */
  function VolumeOf(req: Request): string {
    if req.CreateVolumeRequest? then req.name else req.volumeId
  }

  /** Every capability the request carries is the fixed ext4 mount capability. */
  predicate FixedCapability(req: Request) {
    match req
    case CreateVolumeRequest(_, _, caps) => forall i :: 0 <= i < |caps| ==> caps[i] == MountCapability
    case NodeStageVolumeRequest(_, _, cap, _, _) => cap == MountCapability
    case NodePublishVolumeRequest(_, _, _, cap, _, _) => cap == MountCapability
    case _ => true
  }

  /** One RPC as it leaves the proxy: the endpoint dialled and the request. */
  datatype Call = Call(endpoint: string, request: Request)

  /** What a driver answers; a failure carries its status unchanged. */
  datatype RpcResult = RpcOk | RpcError(status: string)

  type Backend = Call -> RpcResult

  /** The sequence of RPC kinds a list of calls issues. */
  function Rpcs(calls: seq<Call>): (r: seq<Rpc>)
    ensures |r| == |calls|
    ensures forall i :: 0 <= i < |calls| ==> r[i] == RpcOf(calls[i].request)
  {
    if calls == [] then [] else [RpcOf(calls[0].request)] + Rpcs(calls[1..])
  }

  /** The client's report of an RPC: success, or the remote status unchanged. */
  function Invoke(backend: Backend, call: Call): (r: Result<(), string>)
    ensures r.Ok? <==> backend(call).RpcOk?
    ensures r.Err? ==> backend(call) == RpcError(r.error)
  {
    match backend(call)
    case RpcOk => Ok(())
    case RpcError(status) => Err(status)
  }

  function CreateVolume(name: string, params: map<string, string>): (r: Request)
    ensures r.CreateVolumeRequest? && VolumeOf(r) == name && r.parameters == params
    ensures |r.volumeCapabilities| == 1 && FixedCapability(r)
  {
    CreateVolumeRequest(name, params, [MountCapability])
  }

  function DeleteVolume(id: string): (r: Request)
    ensures r.DeleteVolumeRequest? && VolumeOf(r) == id
  {
    DeleteVolumeRequest(id)
  }

  function NodeStageVolume(volumeId: string, stagingTarget: string,
                           volumeContext: map<string, string>, secrets: map<string, string>): (r: Request)
    ensures r.NodeStageVolumeRequest? && VolumeOf(r) == volumeId
    ensures r.stagingTargetPath == stagingTarget
    ensures r.volumeContext == volumeContext && r.secrets == secrets
    ensures FixedCapability(r)
  {
    NodeStageVolumeRequest(volumeId, stagingTarget, MountCapability, volumeContext, secrets)
  }

  /** Publishing derives both paths from the volume's parent directory and sends no secrets. */
  function NodePublishVolume(volumeId: string, parent: string, volumeContext: map<string, string>): (r: Request)
    ensures r.NodePublishVolumeRequest? && VolumeOf(r) == volumeId
    ensures r.targetPath == Join(parent, "mount") && r.stagingTargetPath == Join(parent, "staging")
    ensures r.targetPath != r.stagingTargetPath
    ensures r.volumeContext == volumeContext && r.secrets == map[]
    ensures FixedCapability(r)
  {
    JoinRelative(parent, "mount");
    JoinRelative(parent, "staging");
    NodePublishVolumeRequest(volumeId, Join(parent, "mount"), Join(parent, "staging"),
                             MountCapability, volumeContext, map[])
  }

  function NodeUnpublishVolume(volumeId: string, target: string): (r: Request)
    ensures r.NodeUnpublishVolumeRequest? && VolumeOf(r) == volumeId && r.targetPath == target
  {
    NodeUnpublishVolumeRequest(volumeId, target)
  }

}

=== FILE: host.dfy ===
/** The host-side effects of bringing a driver up: image pull and export,
    directory creation, unpacking, the log file and the process launch. Each
    effect's outcome comes from an oracle; the only host state the model
    keeps is the set of directories known to exist. */
module Host {
  import opened Results

  datatype Action =
    | PullImage(image: string)
    | MakeDirs(path: string)
    | CreateFile(path: string)
    | ExportImage(image: string, tarPath: string)
    | Untar(tarPath: string, dest: string)
    | OpenLog(path: string)
    | Launch(argv: seq<string>)

  datatype IoResult = Done | Failed(cause: string)

  /** The host as seen by the manager: the outcome of each effect, and
      whether a socket path exists at the k-th readiness poll. */
  datatype Oracle = Oracle(perform: Action -> IoResult, socketAt: (string, nat) -> bool)

  /** The effect that failed and the underlying cause it wraps. */
  datatype StepError = StepError(action: Action, cause: string)

  datatype Run = Run(done: seq<Action>, dirs: set<string>, outcome: Result<(), StepError>)

  /** The directories that exist after `a` succeeds. */
  function Made(dirs: set<string>, a: Action): set<string> {
    if a.MakeDirs? then dirs + {a.path} else dirs
  }

  /** Performs `steps` in order and stops at the first failure, as the
      sequence of `if err != nil { return ... }` checks does. */
  function Perform(steps: seq<Action>, perform: Action -> IoResult, dirs: set<string>): (r: Run)
    decreases |steps|
    ensures r.done <= steps
    ensures r.outcome.Ok? ==> r.done == steps
    ensures forall i :: 0 <= i < |r.done| - 1 ==> perform(r.done[i]).Done?
    ensures r.outcome.Ok? ==> forall i :: 0 <= i < |steps| ==> perform(steps[i]).Done?
    ensures r.outcome.Err? ==> |r.done| > 0
    ensures r.outcome.Err? ==> var last := r.done[|r.done| - 1];
              perform(last) == Failed(r.outcome.error.cause) && r.outcome.error.action == last
    ensures dirs <= r.dirs
    ensures forall p :: p in r.dirs && p !in dirs ==> MakeDirs(p) in r.done && perform(MakeDirs(p)).Done?
    ensures forall i :: 0 <= i < |r.done| && r.done[i].MakeDirs? && perform(r.done[i]).Done?
              ==> r.done[i].path in r.dirs
  {
    if steps == [] then Run([], dirs, Ok(()))
    else
      match perform(steps[0])
      case Failed(cause) => Run([steps[0]], dirs, Err(StepError(steps[0], cause)))
      case Done =>
        var rest := Perform(steps[1..], perform, Made(dirs, steps[0]));
        assert forall i :: 1 <= i < |[steps[0]] + rest.done| ==> ([steps[0]] + rest.done)[i] == rest.done[i - 1];
        Run([steps[0]] + rest.done, rest.dirs, rest.outcome)
  }

}

=== FILE: lifecycle.dfy ===
/** Properties that relate several handler calls of the volume driver, and
    the places where paths computed by different parts of the proxy do not
    meet. */
module Lifecycle {
  import opened Results
  import opened Paths
  import opened Configuration
  import opened Csi
  import opened PluginManager
  import opened Options
  import opened VolumePlugin

  /** Defaults {a: 1}, secret {s: x} and request {a: 2, s: y, driver: alias}
      give options {a: 2} and secrets {s: y}. */
  lemma MergeExample(drv: DriverConfig, alias: string)
    requires drv.options == map["a" := "1"] && drv.secrets == map["s" := "x"]
    ensures Merge(drv, map["a" := "2", "s" := "y", DriverKey := alias])
            == Merged(map["a" := "2"], map["s" := "y"])
  {
    var requested := map["a" := "2", "s" := "y", DriverKey := alias];
    var r := Merge(drv, requested);
    assert r.options.Keys == {"a"};
    assert r.secrets.Keys == {"s"};
  }

  /** A Create that reaches the driver records the volume, unstaged, before
      CreateVolume is sent: the registry afterwards does not depend on the
      driver's answer. */
  lemma CreateRecordsBeforeRpc(cfg: Config, d: VolumeDriver, name: string, requested: map<string, string>,
                               host: Host.Oracle, ok: Backend, failing: Backend)
    requires Valid(cfg, d)
    requires DriverKey in requested
    requires EnsurePluginRunning(cfg, d.mgr, d.dirs, requested[DriverKey], host).result.Ok?
    ensures Create(cfg, d, name, requested, host, ok).driver == Create(cfg, d, name, requested, host, failing).driver
    ensures name in Create(cfg, d, name, requested, host, failing).driver.volumes
    ensures !Create(cfg, d, name, requested, host, failing).driver.volumes[name].mounted
  {
  }

  /** Remove forgets the volume whatever DeleteVolume answers, so a failed
      delete cannot be retried through Get. */
  lemma RemoveForgets(d: VolumeDriver, name: string, backend: Backend)
    ensures Get(Remove(d, name, backend).driver, name) == Err(VolumeDoesNotExist(name))
    ensures Volume(name, "") !in List(Remove(d, name, backend).driver)
  {
  }

  /** Get and List read the same registry. */
  lemma GetAgreesWithList(d: VolumeDriver, v: Volume)
    ensures v in List(d) <==> Get(d, v.name) == Ok(v)
  {
  }

  /** A volume that has been mounted once is never staged again: a second
      Mount, or a Mount after Unmount, only publishes. */
  lemma RemountOnlyPublishes(d: VolumeDriver, name: string, first: Backend, second: Backend)
    requires Mount(d, name, first).result.Ok?
    ensures var d1 := Mount(d, name, first).driver;
      && Rpcs(Mount(d1, name, second).calls) == [NodePublishRpc]
      && Rpcs(Mount(Unmount(d1, name, second).driver, name, second).calls) == [NodePublishRpc]
  {
    MountStagingRules(d, name, first);
    var d1 := Mount(d, name, first).driver;
    assert name in d1.volumes && d1.volumes[name].mounted;
  }

  /** A driver that accepts every call. */
  ghost predicate AcceptsAll(backend: Backend) {
    forall c :: backend(c) == RpcOk
  }

  /** Every call goes to `endpoint`. */
  predicate AllTo(calls: seq<Call>, endpoint: string) {
    forall i :: 0 <= i < |calls| ==> calls[i].endpoint == endpoint
  }

  /** Create with an already running driver and an accepting backend. */
  lemma CreateOnRunningDriver(cfg: Config, d: VolumeDriver, name: string,
                              requested: map<string, string>, host: Host.Oracle, backend: Backend)
    requires Valid(cfg, d)
    requires DriverKey in requested && requested[DriverKey] in d.mgr.active
    requires AcceptsAll(backend)
    ensures var c := Create(cfg, d, name, requested, host, backend);
      && c.result.Ok? && c.actions == []
      && Rpcs(c.calls) == [CreateVolumeRpc]
      && c.calls[0].endpoint == c.driver.target == SocketFor(cfg, requested[DriverKey])
      && name in c.driver.volumes && !c.driver.volumes[name].mounted
  {
  }

  /** Mount of a volume not yet staged, with an accepting backend. */
  lemma MountUnstaged(d: VolumeDriver, name: string, backend: Backend)
    requires name in d.volumes && !d.volumes[name].mounted
    requires AcceptsAll(backend)
    ensures var m := Mount(d, name, backend);
      && m.result.Ok?
      && Rpcs(m.calls) == [NodeStageRpc, NodePublishRpc]
      && m.driver.target == d.target && AllTo(m.calls, d.target)
  {
    MountStagingRules(d, name, backend);
  }

  /** Unmount and then Remove, with an accepting backend. */
  lemma UnmountThenRemove(d: VolumeDriver, name: string, backend: Backend)
    requires AcceptsAll(backend)
    ensures var u := Unmount(d, name, backend);
      var rm := Remove(u.driver, name, backend);
      && u.result.Ok? && rm.result.Ok?
      && Rpcs(u.calls) == [NodeUnpublishRpc] && Rpcs(rm.calls) == [DeleteVolumeRpc]
      && AllTo(u.calls, d.target) && AllTo(rm.calls, d.target)
      && Get(rm.driver, name).Err?
  {
    var u := Unmount(d, name, backend);
    assert Rpcs(u.calls) == [NodeUnpublishRpc];
    assert Rpcs(Remove(u.driver, name, backend).calls) == [DeleteVolumeRpc];
  }

  /** Create, Mount, Unmount and Remove against a driver that accepts every
      call succeed and issue CreateVolume, then NodeStageVolume and
      NodePublishVolume, then NodeUnpublishVolume, then DeleteVolume, all to
      the alias's endpoint, and leave the volume unknown. */
  lemma CreateMountUnmountRemove(cfg: Config, d: VolumeDriver, name: string,
                                 requested: map<string, string>, host: Host.Oracle, backend: Backend)
    requires Valid(cfg, d)
    requires DriverKey in requested && requested[DriverKey] in d.mgr.active
    requires AcceptsAll(backend)
    ensures var c := Create(cfg, d, name, requested, host, backend);
      var m := Mount(c.driver, name, backend);
      var u := Unmount(m.driver, name, backend);
      var rm := Remove(u.driver, name, backend);
      var endpoint := SocketFor(cfg, requested[DriverKey]);
      && c.result.Ok? && m.result.Ok? && u.result.Ok? && rm.result.Ok?
      && c.actions == []
      && Rpcs(c.calls) == [CreateVolumeRpc] && Rpcs(m.calls) == [NodeStageRpc, NodePublishRpc]
      && Rpcs(u.calls) == [NodeUnpublishRpc] && Rpcs(rm.calls) == [DeleteVolumeRpc]
      && AllTo(c.calls, endpoint) && AllTo(m.calls, endpoint)
      && AllTo(u.calls, endpoint) && AllTo(rm.calls, endpoint)
      && Get(rm.driver, name).Err?
  {
    var c := Create(cfg, d, name, requested, host, backend);
    CreateOnRunningDriver(cfg, d, name, requested, host, backend);
    var m := Mount(c.driver, name, backend);
    MountUnstaged(c.driver, name, backend);
    UnmountThenRemove(m.driver, name, backend);
  }

  /** Unmount unpublishes at the volume's directory, not at the mount point
      that Mount published and returned. */
  lemma UnmountTargetIsNotMountPoint(d: VolumeDriver, name: string, backend: Backend)
    ensures Unmount(d, name, backend).calls[0].request.targetPath != MountPoint(name)
    ensures Unmount(d, name, backend).calls[0].request.targetPath == VolumeDir(name)
  {
    JoinRelative(VolumeDir(name), "mount");
  }

  /** Path reports a location under /var/lib/docker-volumes, never the mount
      point Mount returns under /data. */
  lemma PathIsNotMountPoint(name: string)
    ensures Path(name) != MountPoint(name)
  {
    var mp := MountPoint(name);
    assert BaseDir <= VolumeDir(name) <= mp;
    assert mp[1] == 'd';
    assert Path(name)[1] == 'v';
  }

  /** The client dials the socket the manager polls only when the endpoint
      directory is that alias's run directory inside its rootfs. */
  predicate DialsPolledSocket(cfg: Config, alias: string) {
    SocketFor(cfg, alias) == SocketScheme + PolledSocket(alias)
  }

  lemma DialsPolledSocketOnlyFromRunDir(cfg: Config, alias: string)
    requires Segment(alias)
    requires DialsPolledSocket(cfg, alias)
    ensures JoinPrefix(cfg.csiEndpointDir) == "/plugins/" + alias + "/rootfs/run/"
  {
    var sock := alias + ".sock";
    var dir := JoinPrefix(cfg.csiEndpointDir);
    var run := "/plugins/" + alias + "/rootfs/run/";
    assert SocketFor(cfg, alias) == SocketScheme + dir + sock by {
      SocketForPlain(cfg, alias);
    }
    assert PolledSocket(alias) == run + sock by {
      PolledSocketPath(alias);
    }
    CancelAround(SocketScheme, dir, run, sock);
  }

  /** Hence no endpoint directory lets the client reach the launched drivers
      of two different aliases. */
  lemma EndpointDirServesOneAlias(cfg: Config, a: string, b: string)
    requires Segment(a) && Segment(b) && a != b
    ensures !(DialsPolledSocket(cfg, a) && DialsPolledSocket(cfg, b))
  {
    if DialsPolledSocket(cfg, a) && DialsPolledSocket(cfg, b) {
      DialsPolledSocketOnlyFromRunDir(cfg, a);
      DialsPolledSocketOnlyFromRunDir(cfg, b);
      CancelAround("/plugins/", a, b, "/rootfs/run/");
    }
  }

}

=== FILE: manager.dfy ===
/** The driver bring-up supervisor: an idempotent cache over the set of
    aliases whose driver process has been launched and seen to open its
    socket. Time is an integer tick clock in milliseconds. */
module PluginManager {
  import opened Results
  import opened Paths
  import opened Configuration
  import opened Host

  datatype Manager = Manager(active: set<string>)

  datatype Error =
    | UnknownAlias(alias: string)
    | HostFailure(action: Action, cause: string)
    | SocketTimeout(path: string)
    | DriverFailed(alias: string, inner: Error)

  /** The manager after a call, the directories that exist, the outcome and
      the host effects attempted, in order. */
  datatype Bringup = Bringup(mgr: Manager, dirs: set<string>, result: Result<(), Error>, actions: seq<Action>)

  /** A fresh manager: nothing is active. */
  function NewManager(): (m: Manager)
    ensures forall a :: a !in m.active
  {
    Manager({})
  }

  const PluginsRoot := "/plugins"
  const Deadline := 5000      // ms after launch
  const PollInterval := 100   // ms between polls
  /** Index of the first poll taken after the deadline. */
  const LastPoll := Deadline / PollInterval + 1

  function PluginDir(alias: string): string { Join(PluginsRoot, alias) }
  function Rootfs(alias: string): string { Join(PluginDir(alias), "rootfs") }
  function TarPath(alias: string): string { Join(PluginDir(alias), alias + ".tar") }
  function LogDir(alias: string): string { Join(PluginDir(alias), "logs") }
  function LogFile(alias: string): string { Join(LogDir(alias), alias + ".log") }
  /** The socket as the driver sees it inside its chroot. */
  function ChrootSocket(alias: string): string { Join("/run", alias + ".sock") }
  /** The same socket as the manager sees it from outside the chroot. */
  function PolledSocket(alias: string): string { Join(Rootfs(alias), ChrootSocket(alias)) }

  /** The argument vector of the chrooted driver process. */
  function LaunchArgv(cfg: Config, alias: string): seq<string>
    requires alias in cfg.drivers
  {
    var drv := cfg.drivers[alias];
    ["chroot", Rootfs(alias), Join("/", drv.binPath),
     "--nodeid", cfg.nodeId,
     "--endpoint", SocketScheme + ChrootSocket(alias),
     "--drivername", drv.driverName] + drv.startCommand
  }

  /** For a plain alias, the per-alias paths are plain concatenations. */
  lemma RootfsPath(alias: string)
    requires Segment(alias)
    ensures PluginDir(alias) == "/plugins/" + alias
    ensures Rootfs(alias) == "/plugins/" + alias + "/rootfs"
  {
    var dir := "/plugins/" + alias;
    assert PluginDir(alias) == dir;
    assert dir[|dir| - 1] == alias[|alias| - 1];
  }

  lemma ChrootSocketPath(alias: string)
    requires Segment(alias)
    ensures ChrootSocket(alias) == "/run/" + alias + ".sock"
  {
    var sock := alias + ".sock";
    assert sock[0] == alias[0];
  }

  /** The two halves of the polled path meet at "/rootfs/run/". */
  lemma RootfsRunConcat(x: string, y: string)
    ensures ("/plugins/" + x + "/rootfs") + ("/run/" + y + ".sock") == "/plugins/" + x + "/rootfs/run/" + y + ".sock"
  {
    assert "/rootfs" + "/run/" == "/rootfs/run/";
  }

  lemma PolledSocketPath(alias: string)
    requires Segment(alias)
    ensures PolledSocket(alias) == "/plugins/" + alias + "/rootfs/run/" + alias + ".sock"
  {
    var root := Rootfs(alias);
    var sock := ChrootSocket(alias);
    assert root == "/plugins/" + alias + "/rootfs" by { RootfsPath(alias); }
    assert sock == "/run/" + alias + ".sock" by { ChrootSocketPath(alias); }
    assert root[|root| - 1] == 's' && sock[0] == '/';
    JoinAbsolute(root, sock);
    RootfsRunConcat(alias, alias);
  }

  /** For a plain alias and a relative binary path, the driver is started as
      `chroot /plugins/<alias>/rootfs /<bin> --nodeid .. --endpoint
      unix:///run/<alias>.sock --drivername ..` followed by the extra
      arguments, and the manager polls that socket from outside the chroot. */
  lemma LaunchLayout(cfg: Config, alias: string)
    requires alias in cfg.drivers && Segment(alias)
    requires cfg.drivers[alias].binPath != "" && cfg.drivers[alias].binPath[0] != '/'
    ensures var drv := cfg.drivers[alias];
      LaunchArgv(cfg, alias) ==
        ["chroot", "/plugins/" + alias + "/rootfs", "/" + drv.binPath,
         "--nodeid", cfg.nodeId,
         "--endpoint", "unix:///run/" + alias + ".sock",
         "--drivername", drv.driverName] + drv.startCommand
    ensures PolledSocket(alias) == "/plugins/" + alias + "/rootfs/run/" + alias + ".sock"
    ensures LaunchArgv(cfg, alias)[6] == SocketScheme + ChrootSocket(alias)
    ensures PolledSocket(alias) == Join(LaunchArgv(cfg, alias)[1], ChrootSocket(alias))
  {
    RootfsPath(alias);
    ChrootSocketPath(alias);
    PolledSocketPath(alias);
    var drv := cfg.drivers[alias];
    assert Join("/", drv.binPath) == "/" + drv.binPath;
    assert SocketScheme + ChrootSocket(alias) == "unix:///run/" + alias + ".sock";
  }

  /** The readiness poll from poll `k` on: poll k happens k * PollInterval
      ticks after launch; a missing socket after the deadline is a timeout. */
  datatype Readiness = Ready(poll: nat) | TimedOut(poll: nat)

  function Max(a: nat, b: nat): nat { if a < b then b else a }

  function AwaitSocket(present: nat -> bool, k: nat): (r: Readiness)
    decreases LastPoll - k
    ensures k <= r.poll <= Max(k, LastPoll)
    ensures forall j :: k <= j < r.poll ==> !present(j)
    ensures r.Ready? <==> present(r.poll)
    ensures r.TimedOut? ==> r.poll == Max(k, LastPoll)
  {
    if present(k) then Ready(k)
    else if k * PollInterval > Deadline then TimedOut(k)
    else AwaitSocket(present, k + 1)
  }

  /** The polling loop as written: stat, check the clock, sleep. */
  method WaitForSocket(present: nat -> bool) returns (r: Readiness, elapsed: nat)
    ensures r == AwaitSocket(present, 0)
    ensures elapsed == r.poll * PollInterval
    ensures r.Ready? <==> exists j :: 0 <= j <= LastPoll && present(j)
    ensures r.TimedOut? ==> Deadline < elapsed <= Deadline + PollInterval
  {
    var now := 0;
    var k := 0;
    while true
      invariant now == k * PollInterval
      invariant k <= LastPoll
      invariant AwaitSocket(present, k) == AwaitSocket(present, 0)
      invariant forall j :: 0 <= j < k ==> !present(j)
      decreases LastPoll - k
    {
      if present(k) {
        return Ready(k), now;
      }
      if now > Deadline {
        return TimedOut(k), now;
      }
      now := now + PollInterval;
      k := k + 1;
    }
  }

  /** Effects that fetch and materialise the image. */
  predicate IsFetch(a: Action) {
    a.PullImage? || a.ExportImage? || a.Untar?
  }

  function DownloadSteps(drv: DriverConfig, alias: string): seq<Action> {
    [PullImage(drv.image), MakeDirs(PluginDir(alias)), CreateFile(TarPath(alias)),
     ExportImage(drv.image, TarPath(alias)), MakeDirs(Rootfs(alias)),
     Untar(TarPath(alias), Rootfs(alias))]
  }

  function LaunchSteps(cfg: Config, alias: string): seq<Action>
    requires alias in cfg.drivers
  {
    [MakeDirs(LogDir(alias)), OpenLog(LogFile(alias)), Launch(LaunchArgv(cfg, alias))]
  }

  /** Everything the bring-up performs before polling: the download when
      the rootfs directory is missing, then the launch. */
  function BringupSteps(cfg: Config, dirs: set<string>, alias: string): (steps: seq<Action>)
    requires alias in cfg.drivers
    ensures |steps| > 0 && steps[|steps| - 1] == Launch(LaunchArgv(cfg, alias))
    ensures Rootfs(alias) in dirs ==> forall i :: 0 <= i < |steps| ==> !IsFetch(steps[i])
    ensures Rootfs(alias) !in dirs ==> steps[0] == PullImage(cfg.drivers[alias].image)
  {
    (if Rootfs(alias) in dirs then [] else DownloadSteps(cfg.drivers[alias], alias))
    + LaunchSteps(cfg, alias)
  }

  /** Polls for the socket of a launched driver; only a socket seen in time
      makes the alias active. */
  function AwaitLaunch(m: Manager, dirs: set<string>, done: seq<Action>, alias: string, socket: string,
                       host: Oracle): (b: Bringup)
    ensures b.dirs == dirs && b.actions == done
    ensures b.result.Ok? <==> exists j :: 0 <= j <= LastPoll && host.socketAt(socket, j)
    ensures b.mgr.active == if b.result.Ok? then m.active + {alias} else m.active
    ensures b.result.Err? ==> b.result.error == SocketTimeout(socket)
  {
    var present := (j: nat) => host.socketAt(socket, j);
    var r := AwaitSocket(present, 0);
    assert r.Ready? ==> present(r.poll);
    assert r.TimedOut? ==> forall j :: 0 <= j <= LastPoll ==> !host.socketAt(socket, j) by {
      if r.TimedOut? {
        forall j | 0 <= j <= LastPoll ensures !host.socketAt(socket, j) {
          assert !present(j);
        }
      }
    }
    if r.Ready? then Bringup(Manager(m.active + {alias}), dirs, Ok(()), done)
    else Bringup(m, dirs, Err(SocketTimeout(socket)), done)
  }

  /** The bring-up of a configured alias that is not active yet: the host
      effects in order, then the readiness poll. */
  function Start(cfg: Config, m: Manager, dirs: set<string>, alias: string, host: Oracle): (b: Bringup)
    requires alias in cfg.drivers
    ensures b.mgr.active == if b.result.Ok? then m.active + {alias} else m.active
    ensures b.result.Ok? ==>
              b.actions == BringupSteps(cfg, dirs, alias)
              && exists j :: 0 <= j <= LastPoll && host.socketAt(PolledSocket(alias), j)
    ensures b.result.Err? ==> b.result.error.HostFailure? || b.result.error == SocketTimeout(PolledSocket(alias))
    ensures b.result.Err? && b.result.error.HostFailure? ==>
              |b.actions| > 0 && b.result.error.action == b.actions[|b.actions| - 1]
              && host.perform(b.result.error.action) == Failed(b.result.error.cause)
    ensures b.result.Err? && b.result.error.SocketTimeout? ==>
              b.actions == BringupSteps(cfg, dirs, alias)
              && forall j :: 0 <= j <= LastPoll ==> !host.socketAt(PolledSocket(alias), j)
    ensures forall i :: 0 <= i < |b.actions| - 1 ==> host.perform(b.actions[i]).Done?
    ensures dirs <= b.dirs
    ensures forall p :: p in b.dirs && p !in dirs ==> MakeDirs(p) in b.actions && host.perform(MakeDirs(p)).Done?
    ensures b.actions <= BringupSteps(cfg, dirs, alias) && |b.actions| > 0
  {
    var steps := BringupSteps(cfg, dirs, alias);
    var run := Perform(steps, host.perform, dirs);
    if run.outcome.Err? then
      Bringup(m, run.dirs, Err(HostFailure(run.outcome.error.action, run.outcome.error.cause)), run.done)
    else
      AwaitLaunch(m, run.dirs, run.done, alias, PolledSocket(alias), host)
  }

  /** Brings the driver for `alias` up unless it is already active. */
  function EnsurePluginRunning(cfg: Config, m: Manager, dirs: set<string>, alias: string,
                               host: Oracle): (b: Bringup)
    ensures alias in m.active ==> b == Bringup(m, dirs, Ok(()), [])
    ensures b.result.Ok? <==> alias in b.mgr.active
    ensures b.mgr.active == if b.result.Ok? then m.active + {alias} else m.active
    ensures b.result.Ok? && alias !in m.active ==>
              alias in cfg.drivers
              && |b.actions| > 0 && b.actions[|b.actions| - 1] == Launch(LaunchArgv(cfg, alias))
              && exists j :: 0 <= j <= LastPoll && host.socketAt(PolledSocket(alias), j)
    ensures b.result.Err? && alias in cfg.drivers ==>
              b.result.error.HostFailure? || b.result.error == SocketTimeout(PolledSocket(alias))
    ensures b.result.Err? && b.result.error.HostFailure? ==>
              |b.actions| > 0 && b.result.error.action == b.actions[|b.actions| - 1]
              && host.perform(b.result.error.action) == Failed(b.result.error.cause)
    ensures alias !in cfg.drivers && alias !in m.active ==>
              b == Bringup(m, dirs, Err(UnknownAlias(alias)), [])
    ensures b.result.Err? && b.result.error.SocketTimeout? ==>
              alias in cfg.drivers && b.actions == BringupSteps(cfg, dirs, alias)
              && forall j :: 0 <= j <= LastPoll ==> !host.socketAt(PolledSocket(alias), j)
    ensures forall i :: 0 <= i < |b.actions| - 1 ==> host.perform(b.actions[i]).Done?
    ensures dirs <= b.dirs
    ensures forall p :: p in b.dirs && p !in dirs ==> MakeDirs(p) in b.actions && host.perform(MakeDirs(p)).Done?
    ensures alias !in m.active && alias in cfg.drivers ==> b.actions <= BringupSteps(cfg, dirs, alias)
    ensures alias !in m.active && alias in cfg.drivers ==> |b.actions| > 0
  {
    if alias in m.active then Bringup(m, dirs, Ok(()), [])
    else if alias !in cfg.drivers then Bringup(m, dirs, Err(UnknownAlias(alias)), [])
    else Start(cfg, m, dirs, alias, host)
  }

  /** The image is pulled, exported and unpacked only when the rootfs
      directory is missing, and then pulling is the first thing done. */
  lemma DownloadOnlyWithoutRootfs(cfg: Config, m: Manager, dirs: set<string>, alias: string, host: Oracle)
    ensures var b := EnsurePluginRunning(cfg, m, dirs, alias, host);
      && (Rootfs(alias) in dirs ==> forall i :: 0 <= i < |b.actions| ==> !IsFetch(b.actions[i]))
      && (alias !in m.active && alias in cfg.drivers && Rootfs(alias) !in dirs ==>
            b.actions[0] == PullImage(cfg.drivers[alias].image))
  {
    var b := EnsurePluginRunning(cfg, m, dirs, alias, host);
    if alias !in m.active && alias in cfg.drivers {
      var steps := BringupSteps(cfg, dirs, alias);
      assert forall i :: 0 <= i < |b.actions| ==> b.actions[i] == steps[i];
    }
  }

  /** Without a rootfs the nine effects end with the launch; the unpack is
      the sixth and comes right after the rootfs directory is made. */
  lemma DownloadStepsShape(cfg: Config, dirs: set<string>, alias: string)
    requires alias in cfg.drivers && Rootfs(alias) !in dirs
    ensures var steps := BringupSteps(cfg, dirs, alias);
      && |steps| == 9
      && steps[4] == MakeDirs(Rootfs(alias))
      && steps[5].Untar?
      && forall i :: 0 <= i < |steps| && i != 5 ==> !steps[i].Untar?
  {
    var steps := BringupSteps(cfg, dirs, alias);
    var download := DownloadSteps(cfg.drivers[alias], alias);
    var launch := LaunchSteps(cfg, alias);
    assert steps == download + launch;
    forall i | 0 <= i < |steps| && i != 5 ensures !steps[i].Untar? {
      if i < |download| {
        assert steps[i] == download[i];
      } else {
        assert steps[i] == launch[i - |download|];
      }
    }
  }

  /** When the unpack step is the one that fails, the rootfs directory was
      made just before it. */
  lemma UnpackFailureLeavesRootfs(cfg: Config, dirs: set<string>, alias: string, perform: Action -> IoResult)
    requires alias in cfg.drivers && Rootfs(alias) !in dirs
    requires var run := Perform(BringupSteps(cfg, dirs, alias), perform, dirs);
      run.outcome.Err? && run.outcome.error.action.Untar?
    ensures Rootfs(alias) in Perform(BringupSteps(cfg, dirs, alias), perform, dirs).dirs
  {
    var steps := BringupSteps(cfg, dirs, alias);
    DownloadStepsShape(cfg, dirs, alias);
    var run := Perform(steps, perform, dirs);
    var n := |run.done|;
    assert run.done[n - 1] == steps[n - 1];
    assert n == 6;
    assert run.done[4] == MakeDirs(Rootfs(alias));
  }

  /** A bring-up whose unpack failed has already created the rootfs
      directory, so the next call skips the download and launches from the
      partially unpacked tree. */
  lemma PartialUnpackIsNotRetried(cfg: Config, m: Manager, dirs: set<string>, alias: string,
                                  host: Oracle, retry: Oracle)
    requires alias in cfg.drivers && alias !in m.active && Rootfs(alias) !in dirs
    requires var b := EnsurePluginRunning(cfg, m, dirs, alias, host);
      b.result.Err? && b.result.error.HostFailure? && b.result.error.action.Untar?
    ensures var b := EnsurePluginRunning(cfg, m, dirs, alias, host);
      var again := EnsurePluginRunning(cfg, b.mgr, b.dirs, alias, retry);
      Rootfs(alias) in b.dirs && forall i :: 0 <= i < |again.actions| ==> !IsFetch(again.actions[i])
  {
    var b := EnsurePluginRunning(cfg, m, dirs, alias, host);
    var run := Perform(BringupSteps(cfg, dirs, alias), host.perform, dirs);
    assert b.dirs == run.dirs && run.outcome.Err? && run.outcome.error.action == b.result.error.action;
    UnpackFailureLeavesRootfs(cfg, dirs, alias, host.perform);
    DownloadOnlyWithoutRootfs(cfg, b.mgr, b.dirs, alias, retry);
  }

  /** Once a call has succeeded, every later call is a no-op that succeeds. */
  lemma EnsureIsIdempotent(cfg: Config, m: Manager, dirs: set<string>, alias: string,
                           host: Oracle, later: Oracle)
    requires EnsurePluginRunning(cfg, m, dirs, alias, host).result.Ok?
    ensures var b := EnsurePluginRunning(cfg, m, dirs, alias, host);
      EnsurePluginRunning(cfg, b.mgr, b.dirs, alias, later) == Bringup(b.mgr, b.dirs, Ok(()), [])
  {
  }

  /** Go's `range` over the drivers map: every alias exactly once, in some order. */
  predicate Enumerates(order: seq<string>, keys: set<string>) {
    && (forall i, j :: 0 <= i < j < |order| ==> order[i] != order[j])
    && (forall a :: a in keys ==> a in order)
    && (forall i :: 0 <= i < |order| ==> order[i] in keys)
  }

  /** A non-empty list lies in `s` iff its head and its tail do. */
  lemma AllInTail(order: seq<string>, s: set<string>)
    requires |order| > 0
    ensures (forall i :: 0 <= i < |order| ==> order[i] in s) <==>
            order[0] in s && forall i :: 0 <= i < |order[1..]| ==> order[1..][i] in s
    ensures forall a :: a in order[1..] ==> a in order
  {
    assert forall i :: 1 <= i < |order| ==> order[i] == order[1..][i - 1];
  }

  /** A non-empty prefix has the list's head and a prefix of its tail. */
  lemma PrefixSplits(order: seq<string>, k: nat)
    requires 0 < k <= |order|
    ensures order[..k][0] == order[0] && order[..k][1..] == order[1..][..k - 1]
  {
  }

  /** What a failed run reports about the alias it stopped at: an unknown
      alias; or the effect that failed, which is the last one attempted, with
      its cause; or a timeout on that alias's socket, which no poll up to the
      deadline saw. */
  predicate ReportsFailure(cfg: Config, result: Result<(), Error>, actions: seq<Action>, host: Oracle) {
    result.Err? && result.error.DriverFailed? ==>
      var alias, e := result.error.alias, result.error.inner;
      && (alias !in cfg.drivers ==> e == UnknownAlias(alias))
      && (alias in cfg.drivers ==> e.HostFailure? || e == SocketTimeout(PolledSocket(alias)))
      && (e.HostFailure? ==>
            |actions| > 0 && e.action == actions[|actions| - 1] && host.perform(e.action) == Failed(e.cause))
      && (e.SocketTimeout? ==> forall j :: 0 <= j <= LastPoll ==> !host.socketAt(PolledSocket(alias), j))
  }

  /** Effects done before a failed run do not change what it reports. */
  lemma ReportsFailureAfter(cfg: Config, result: Result<(), Error>, pre: seq<Action>, actions: seq<Action>,
                            host: Oracle)
    ensures ReportsFailure(cfg, result, actions, host) ==> ReportsFailure(cfg, result, pre + actions, host)
  {
    if |actions| > 0 {
      assert (pre + actions)[|pre + actions| - 1] == actions[|actions| - 1];
    }
  }

  /** Brings up each alias of `order` in turn, stopping at the first failure. */
  function ActivateEach(cfg: Config, m: Manager, dirs: set<string>, order: seq<string>,
                        host: Oracle): (b: Bringup)
    decreases |order|
    ensures b.result.Ok? <==> forall i :: 0 <= i < |order| ==> order[i] in b.mgr.active
    ensures b.result.Err? ==> b.result.error.DriverFailed? && b.result.error.alias in order
                              && b.result.error.alias !in b.mgr.active
    ensures ReportsFailure(cfg, b.result, b.actions, host)
    ensures m.active <= b.mgr.active
    ensures forall a :: a in b.mgr.active ==> a in m.active || a in order
  {
    if order == [] then Bringup(m, dirs, Ok(()), [])
    else
      var first := EnsurePluginRunning(cfg, m, dirs, order[0], host);
      if first.result.Err? then
        Bringup(first.mgr, first.dirs, Err(DriverFailed(order[0], first.result.error)), first.actions)
      else
        var rest := ActivateEach(cfg, first.mgr, first.dirs, order[1..], host);
        AllInTail(order, rest.mgr.active);
        ReportsFailureAfter(cfg, rest.result, first.actions, rest.actions, host);
        Bringup(rest.mgr, rest.dirs, rest.result, first.actions + rest.actions)
  }

  /** Where a list of bring-ups stopped: the alias at `i` failed, all
      before it are active, and only they joined the active set. */
  ghost predicate StoppedAt(order: seq<string>, before: set<string>, after: set<string>, alias: string) {
    exists i :: 0 <= i < |order| && order[i] == alias
      && (forall j :: 0 <= j < i ==> order[j] in after)
      && (forall a :: a in after ==> a in before || a in order[..i])
  }

  /** A failure in the tail, after a successful first bring-up, is a failure
      of the whole list one position later. */
  lemma StoppedAtTail(order: seq<string>, before: set<string>, after: set<string>, alias: string)
    requires |order| > 0 && order[0] in after
    requires StoppedAt(order[1..], before + {order[0]}, after, alias)
    ensures StoppedAt(order, before, after, alias)
  {
    var tail := order[1..];
    var i :| 0 <= i < |tail| && tail[i] == alias
             && (forall j :: 0 <= j < i ==> tail[j] in after)
             && (forall a :: a in after ==> a in before + {order[0]} || a in tail[..i]);
    PrefixSplits(order, i + 1);
    assert order[..i + 1] == [order[0]] + tail[..i];
    assert order[i + 1] == alias;
    assert forall j :: 1 <= j < i + 1 ==> order[j] == tail[j - 1];
  }

  /** The bring-ups stop at the first failure: every alias before the one
      that failed is active, and no alias after it has been brought up. */
  lemma {:induction false} ActivateEachStopsAtFailure(cfg: Config, m: Manager, dirs: set<string>,
                                                      order: seq<string>, host: Oracle)
    requires ActivateEach(cfg, m, dirs, order, host).result.Err?
    ensures var b := ActivateEach(cfg, m, dirs, order, host);
      StoppedAt(order, m.active, b.mgr.active, b.result.error.alias)
    decreases |order|
  {
    var b := ActivateEach(cfg, m, dirs, order, host);
    var first := EnsurePluginRunning(cfg, m, dirs, order[0], host);
    if first.result.Err? {
      assert order[0] == b.result.error.alias && b.mgr == first.mgr;
      assert order[..0] == [];
    } else {
      var rest := ActivateEach(cfg, first.mgr, first.dirs, order[1..], host);
      assert b.mgr == rest.mgr && b.result == rest.result;
      assert first.mgr.active == m.active + {order[0]};
      ActivateEachStopsAtFailure(cfg, first.mgr, first.dirs, order[1..], host);
      StoppedAtTail(order, m.active, b.mgr.active, b.result.error.alias);
    }
  }

  /** A failed run of bring-ups is the run over the aliases up to and
      including the one that failed: the aliases after it add no host
      effect, no directory and no activation. */
  lemma {:induction false} ActivateEachEndsAtFailure(cfg: Config, m: Manager, dirs: set<string>,
                                                     order: seq<string>, host: Oracle)
    requires ActivateEach(cfg, m, dirs, order, host).result.Err?
    ensures var b := ActivateEach(cfg, m, dirs, order, host);
      exists i :: 0 <= i < |order| && order[i] == b.result.error.alias
                  && ActivateEach(cfg, m, dirs, order[..i + 1], host) == b
    decreases |order|
  {
    var b := ActivateEach(cfg, m, dirs, order, host);
    var first := EnsurePluginRunning(cfg, m, dirs, order[0], host);
    if first.result.Err? {
      var pre := order[..1];
      PrefixSplits(order, 1);
      assert ActivateEach(cfg, m, dirs, pre, host) == b;
      assert order[0] == b.result.error.alias;
    } else {
      var tail := order[1..];
      var rest := ActivateEach(cfg, first.mgr, first.dirs, tail, host);
      assert b.result == rest.result;
      ActivateEachEndsAtFailure(cfg, first.mgr, first.dirs, tail, host);
      var i :| 0 <= i < |tail| && tail[i] == rest.result.error.alias
               && ActivateEach(cfg, first.mgr, first.dirs, tail[..i + 1], host) == rest;
      var pre := order[..i + 2];
      PrefixSplits(order, i + 2);
      assert ActivateEach(cfg, m, dirs, pre, host) == b;
      assert order[i + 1] == b.result.error.alias;
    }
  }

  /** ActivateAll: succeeds iff every configured driver ends up active; a
      failure names the alias it stopped at and wraps its cause. */
  function ActivateAll(cfg: Config, m: Manager, dirs: set<string>, order: seq<string>,
                       host: Oracle): (b: Bringup)
    requires Enumerates(order, cfg.drivers.Keys)
    ensures b.result.Ok? <==> forall a :: a in cfg.drivers ==> a in b.mgr.active
    ensures b.result.Err? ==> b.result.error.DriverFailed? && b.result.error.alias in cfg.drivers
    ensures b.result.Err? && b.result.error.DriverFailed? ==>
              b.result.error.inner.HostFailure?
              || b.result.error.inner == SocketTimeout(PolledSocket(b.result.error.alias))
    ensures ReportsFailure(cfg, b.result, b.actions, host)
    ensures m.active <= b.mgr.active <= m.active + cfg.drivers.Keys
  {
    var b := ActivateEach(cfg, m, dirs, order, host);
    assert b.result.Ok? ==> forall a :: a in cfg.drivers ==> a in b.mgr.active by {
      if b.result.Ok? {
        forall a | a in cfg.drivers ensures a in b.mgr.active {
          var i :| 0 <= i < |order| && order[i] == a;
        }
      }
    }
    b
  }

}

=== FILE: options.dfy ===
/** Pure option handling of the volume driver: the merge Create performs and
    the prefix-based partition parseOptions performs. */
module Options {
  import opened Configuration

  /** The request option that selects the driver alias. */
  const DriverKey := "driver"
  const SecretPrefix := "secret-"

  datatype Merged = Merged(options: map<string, string>, secrets: map<string, string>)

  /** The request entries, among the keys in `seen`, that the override loop
      routes to the secrets (`secret`) or to the options (`!secret`). */
  function Routed(requested: map<string, string>, secretKeys: set<string>, seen: set<string>,
                  secret: bool): map<string, string>
  {
    map k | k in requested && k in seen && k != DriverKey && (k in secretKeys) == secret :: requested[k]
  }

  /** Create's merge: start from the driver's default options and secrets,
      then let every request entry except the alias selector override them;
      a request key is a secret exactly when the driver configures a secret
      under that key. */
  function Merge(drv: DriverConfig, requested: map<string, string>): (r: Merged)
    ensures r.secrets.Keys == drv.secrets.Keys
    ensures r.options.Keys == drv.options.Keys + (requested.Keys - {DriverKey} - drv.secrets.Keys)
    ensures forall k :: k in requested && k != DriverKey && k in drv.secrets ==> r.secrets[k] == requested[k]
    ensures forall k :: k in requested && k != DriverKey && k !in drv.secrets ==> r.options[k] == requested[k]
    ensures forall k :: k in drv.secrets && (k !in requested || k == DriverKey) ==> r.secrets[k] == drv.secrets[k]
    ensures forall k :: k in drv.options && (k !in requested || k == DriverKey || k in drv.secrets)
              ==> r.options[k] == drv.options[k]
  {
    Merged(drv.options + Routed(requested, drv.secrets.Keys, requested.Keys, false),
           drv.secrets + Routed(requested, drv.secrets.Keys, requested.Keys, true))
  }

  /** Visiting one more request key adds at most that key. */
  lemma RoutedStep(requested: map<string, string>, secretKeys: set<string>, seen: set<string>,
                   secret: bool, k: string)
    requires k in requested
    ensures Routed(requested, secretKeys, seen + {k}, secret) ==
      if k != DriverKey && (k in secretKeys) == secret
      then Routed(requested, secretKeys, seen, secret)[k := requested[k]]
      else Routed(requested, secretKeys, seen, secret)
  {
  }

  /** The merge after the override loop has visited the request keys in `seen`. */
  function MergedAfter(drv: DriverConfig, requested: map<string, string>, seen: set<string>): Merged {
    Merged(drv.options + Routed(requested, drv.secrets.Keys, seen, false),
           drv.secrets + Routed(requested, drv.secrets.Keys, seen, true))
  }

  /** One iteration of the override loop: the alias selector is skipped, a
      configured secret key updates the secrets, any other key the options. */
  lemma MergedAfterStep(drv: DriverConfig, requested: map<string, string>, seen: set<string>, k: string)
    requires k in requested
    ensures var before := MergedAfter(drv, requested, seen);
      MergedAfter(drv, requested, seen + {k}) ==
        if k == DriverKey then before
        else if k in drv.secrets then before.(secrets := before.secrets[k := requested[k]])
        else before.(options := before.options[k := requested[k]])
  {
    RoutedStep(requested, drv.secrets.Keys, seen, false, k);
    RoutedStep(requested, drv.secrets.Keys, seen, true, k);
    var opts := Routed(requested, drv.secrets.Keys, seen, false);
    var secs := Routed(requested, drv.secrets.Keys, seen, true);
    if k != DriverKey {
      assert (drv.options + opts)[k := requested[k]] == drv.options + opts[k := requested[k]];
      assert (drv.secrets + secs)[k := requested[k]] == drv.secrets + secs[k := requested[k]];
    }
  }

  /** The override loop as written: request keys are visited in an arbitrary
      order, as Go's map iteration does, and each is routed by the switch. */
  method MergeInOrder(drv: DriverConfig, requested: map<string, string>)
    returns (finalOpts: map<string, string>, finalSecrets: map<string, string>)
    ensures Merged(finalOpts, finalSecrets) == Merge(drv, requested)
  {
    finalOpts := drv.options;
    finalSecrets := drv.secrets;
    var pending := requested.Keys;
    assert MergedAfter(drv, requested, {}) == Merged(drv.options, drv.secrets) by {
      assert Routed(requested, drv.secrets.Keys, {}, false) == map[];
      assert Routed(requested, drv.secrets.Keys, {}, true) == map[];
    }
    while pending != {}
      invariant pending <= requested.Keys
      invariant Merged(finalOpts, finalSecrets) == MergedAfter(drv, requested, requested.Keys - pending)
      decreases pending
    {
      var k :| k in pending;
      ghost var seen := requested.Keys - pending;
      MergedAfterStep(drv, requested, seen, k);
      if k == DriverKey {
        // the alias selector is never copied
      } else if k in drv.secrets {
        finalSecrets := finalSecrets[k := requested[k]];
      } else {
        finalOpts := finalOpts[k := requested[k]];
      }
      assert Merged(finalOpts, finalSecrets) == MergedAfter(drv, requested, seen + {k});
      pending := pending - {k};
      assert requested.Keys - pending == seen + {k};
    }
    assert requested.Keys - pending == requested.Keys;
  }

  /** parseOptions' result: plain entries and prefix-stripped secrets. */
  datatype Parsed = Parsed(volumeContext: map<string, string>, secrets: map<string, string>)

  predicate IsSecretKey(k: string) {
    SecretPrefix <= k
  }

  /** strings.TrimPrefix on a key known to carry the prefix. */
  function Strip(k: string): (s: string)
    requires IsSecretKey(k)
    ensures SecretPrefix + s == k
  {
    k[|SecretPrefix|..]
  }

  function AddPrefix(s: string): (k: string)
    ensures IsSecretKey(k) && Strip(k) == s
  {
    var k := SecretPrefix + s;
    assert k[|SecretPrefix|..] == s;
    k
  }

  function ParseOptions(opts: map<string, string>): (r: Parsed)
    ensures forall k :: k in r.volumeContext <==> k in opts && !IsSecretKey(k)
    ensures forall k :: k in r.volumeContext ==> r.volumeContext[k] == opts[k]
    ensures forall k :: k in opts && IsSecretKey(k) ==> Strip(k) in r.secrets && r.secrets[Strip(k)] == opts[k]
    ensures forall s :: s in r.secrets ==> AddPrefix(s) in opts && r.secrets[s] == opts[AddPrefix(s)]
  {
    Parsed(
      map k | k in opts && !IsSecretKey(k) :: opts[k],
      map k | k in opts && IsSecretKey(k) :: Strip(k) := opts[k])
  }

  /** Puts the prefix back on every secret: the inverse of ParseOptions. */
  function Unparse(p: Parsed): map<string, string> {
    p.volumeContext + map s | s in p.secrets :: AddPrefix(s) := p.secrets[s]
  }

  /** Every input entry survives parsing and unparsing. */
  lemma UnparseKeeps(opts: map<string, string>, k: string)
    requires k in opts
    ensures k in Unparse(ParseOptions(opts)) && Unparse(ParseOptions(opts))[k] == opts[k]
  {
    var p := ParseOptions(opts);
    if IsSecretKey(k) {
      var s := Strip(k);
      assert AddPrefix(s) == k;
      assert s in p.secrets && p.secrets[s] == opts[k];
    } else {
      assert k !in (map s | s in p.secrets :: AddPrefix(s) := p.secrets[s]);
    }
  }

  /** Parsing and unparsing adds no entry. */
  lemma UnparseAddsNothing(opts: map<string, string>, k: string)
    requires k in Unparse(ParseOptions(opts))
    ensures k in opts
  {
    var p := ParseOptions(opts);
    if k !in p.volumeContext {
      var s :| s in p.secrets && AddPrefix(s) == k;
    }
  }

  /** Re-prefixing the secrets and adding the plain entries gives back the
      original options. */
  lemma ParseOptionsRoundTrip(opts: map<string, string>)
    ensures Unparse(ParseOptions(opts)) == opts
  {
    var u := Unparse(ParseOptions(opts));
    forall k | k in opts ensures k in u && u[k] == opts[k] {
      UnparseKeeps(opts, k);
    }
    forall k | k in u ensures k in opts {
      UnparseAddsNothing(opts, k);
    }
    assert u.Keys == opts.Keys;
  }

  /** Stripping the prefix from a set of prefixed keys loses no element. */
  lemma {:induction false} StripPreservesSize(keys: set<string>)
    requires forall k :: k in keys ==> IsSecretKey(k)
    ensures |set k | k in keys :: Strip(k)| == |keys|
    decreases |keys|
  {
    if keys != {} {
      var x :| x in keys;
      var rest := keys - {x};
      StripPreservesSize(rest);
      var img := set k | k in keys :: Strip(k);
      var imgRest := set k | k in rest :: Strip(k);
      assert img == imgRest + {Strip(x)};
      assert Strip(x) !in imgRest;
    }
  }

  /** The entries of `opts` whose key does (`secret`) or does not carry the prefix. */
  function KeysWhere(opts: map<string, string>, secret: bool): set<string> {
    set k | k in opts && IsSecretKey(k) == secret
  }

  lemma VolumeContextSize(opts: map<string, string>)
    ensures |ParseOptions(opts).volumeContext| == |KeysWhere(opts, false)|
  {
    assert ParseOptions(opts).volumeContext.Keys == KeysWhere(opts, false);
  }

  lemma SecretsSize(opts: map<string, string>)
    ensures |ParseOptions(opts).secrets| == |KeysWhere(opts, true)|
  {
    var prefixed := KeysWhere(opts, true);
    assert ParseOptions(opts).secrets.Keys == set k | k in prefixed :: Strip(k);
    StripPreservesSize(prefixed);
  }

  lemma KeysSplit(opts: map<string, string>)
    ensures |opts| == |KeysWhere(opts, false)| + |KeysWhere(opts, true)|
  {
    assert opts.Keys == KeysWhere(opts, false) + KeysWhere(opts, true);
    assert KeysWhere(opts, false) * KeysWhere(opts, true) == {};
  }

  /** parseOptions partitions its input: no entry is lost or merged. */
  lemma ParseOptionsPartitions(opts: map<string, string>)
    ensures |ParseOptions(opts).volumeContext| + |ParseOptions(opts).secrets| == |opts|
  {
    VolumeContextSize(opts);
    SecretsSize(opts);
    KeysSplit(opts);
  }

}

=== FILE: paths.dfy ===
/** Slash-separated paths as the proxy builds them with filepath.Join and path.Join. */
module Paths {

  /** True when `suffix` ends `s` (Go's strings.HasSuffix). */
  predicate EndsWith(s: string, suffix: string) {
    |suffix| <= |s| && s[|s| - |suffix|..] == suffix
  }

  /** A single path element: non-empty, without a separator, not a dot segment. */
  predicate Segment(s: string) {
    && |s| > 0
    && s != "."
    && s != ".."
    && forall i :: 0 <= i < |s| ==> s[i] != '/'
  }

  /** Joins two path elements with exactly one separator between them. On
      elements that are already clean (no empty or dot segments inside them)
      this is the value Go's Join returns; Go's general lexical cleaning is
      not part of the model. */
  function Join(a: string, b: string): string {
    if a == "" then b
    else if b == "" then a
    else if a[|a| - 1] == '/' && b[0] == '/' then a + b[1..]
    else if a[|a| - 1] == '/' || b[0] == '/' then a + b
    else a + "/" + b
  }

  /** Joining two plain elements puts one separator between them. */
  lemma JoinPlain(a: string, b: string)
    requires a != "" && a[|a| - 1] != '/' && b != "" && b[0] != '/'
    ensures Join(a, b) == a + "/" + b
  {
  }

  /** Joining an absolute element onto a directory concatenates them. */
  lemma JoinAbsolute(a: string, b: string)
    requires a != "" && a[|a| - 1] != '/' && b != "" && b[0] == '/'
    ensures Join(a, b) == a + b
  {
  }

  /** What Join puts in front of a relative element. */
  function JoinPrefix(a: string): string {
    if a == "" then "" else if a[|a| - 1] == '/' then a else a + "/"
  }

  /** Joining a relative element appends it to a prefix that depends on `a` alone. */
  lemma JoinRelative(a: string, b: string)
    requires b != "" && b[0] != '/'
    ensures Join(a, b) == JoinPrefix(a) + b
  {
  }

  /** A relative element joined onto a non-empty directory follows a separator. */
  lemma JoinEndsWithElement(a: string, b: string)
    requires b != "" && b[0] != '/'
    ensures a == "" ==> Join(a, b) == b
    ensures a != "" ==> EndsWith(Join(a, b), "/" + b)
  {
    JoinRelative(a, b);
    if a != "" {
      var p := JoinPrefix(a);
      assert p[|p| - 1] == '/';
      assert Join(a, b) == p[..|p| - 1] + ("/" + b);
    }
  }

  /** A suffix of `s` is still a suffix after something is put in front. */
  lemma EndsWithExtend(p: string, s: string, x: string)
    requires EndsWith(s, x)
    ensures EndsWith(p + s, x)
  {
    assert (p + s)[|p + s| - |x|..] == s[|s| - |x|..];
  }

  /** Equal strings that share a prefix and a suffix agree in between. */
  lemma CancelAround(p: string, x: string, y: string, s: string)
    requires p + x + s == p + y + s
    ensures x == y
  {
    var whole := p + x + s;
    assert |x| == |y|;
    assert x == whole[|p|..|p| + |x|];
    assert y == (p + y + s)[|p|..|p| + |y|];
  }

}

=== FILE: plugin.dfy ===
/** The volume driver: the registry of volumes and the handlers the
    volume-plugin protocol calls. Each handler is one atomic step that
    returns the new driver state, its result, the host effects of any driver
    bring-up, and the CSI calls it issued, in order. */
module VolumePlugin {
  import opened Results
  import opened Paths
  import opened Configuration
  import opened Host
  import opened Csi
  import opened PluginManager
  import opened Options

  /** Root of the per-volume directories. */
  const BaseDir := "/data"
  /** Prefix of the path the Path handler reports. */
  const PathRoot := "/var/lib/docker-volumes/"

  /** A registry entry. `mounted` is set once the volume has been staged. */
  datatype VolumeInfo = VolumeInfo(options: map<string, string>, secrets: map<string, string>, mounted: bool)

  /** The driver's state: the registry, the bring-up manager, the
      directories known to exist, and the endpoint the shared CSI client is
      currently pointed at. */
  datatype VolumeDriver = VolumeDriver(
    volumes: map<string, VolumeInfo>,
    mgr: Manager,
    dirs: set<string>,
    target: string)

  datatype Error =
    | MissingDriverOption
    | DriverUnavailable(cause: PluginManager.Error)
    | VolumeNotFound(name: string)       // from Mount
    | VolumeDoesNotExist(name: string)   // from Get
    | Rpc(status: string)                // a CSI error, passed through

  datatype Reply<T> = Reply(driver: VolumeDriver, result: Result<T, Error>,
                            actions: seq<Action>, calls: seq<Call>)

  /** What Get and List report for a volume. */
  datatype Volume = Volume(name: string, mountpoint: string)

  datatype Capability = Capability(scope: string)

  /** The state invariant: only configured aliases are ever active. */
  predicate Valid(cfg: Config, d: VolumeDriver) {
    d.mgr.active <= cfg.drivers.Keys
  }

  /** The driver as NewVolumeDriver builds it, with the client dialled at `endpoint`. */
  function NewVolumeDriver(cfg: Config, endpoint: string, dirs: set<string>): (d: VolumeDriver)
    ensures Valid(cfg, d)
    ensures forall n :: n !in d.volumes
    ensures forall a :: a !in d.mgr.active
  {
    VolumeDriver(map[], NewManager(), dirs, endpoint)
  }

  function VolumeDir(name: string): string { Join(BaseDir, name) }
  function StagingPath(name: string): string { Join(VolumeDir(name), "staging") }
  function MountPoint(name: string): string { Join(VolumeDir(name), "mount") }

  /** The client's outcome as a handler result. */
  function Completed(backend: Backend, call: Call): (r: Result<(), Error>)
    ensures r.Ok? <==> backend(call).RpcOk?
    ensures r.Err? ==> r.error == Rpc(backend(call).status)
  {
    match Invoke(backend, call)
    case Ok(_) => Ok(())
    case Err(status) => Err(Rpc(status))
  }

  /** Create: select the driver by the `driver` option, bring it up, merge
      options, record the volume, then ask the driver to create it. */
  function Create(cfg: Config, d: VolumeDriver, name: string, requested: map<string, string>,
                  host: Oracle, backend: Backend): (r: Reply<()>)
    requires Valid(cfg, d)
    ensures Valid(cfg, r.driver)
    ensures DriverKey !in requested ==> r == Reply(d, Err(MissingDriverOption), [], [])
    ensures DriverKey in requested ==>
              var b := EnsurePluginRunning(cfg, d.mgr, d.dirs, requested[DriverKey], host);
              && r.driver.mgr == b.mgr && r.driver.dirs == b.dirs && r.actions == b.actions
              && (b.result.Err? ==> r.result == Err(DriverUnavailable(b.result.error)))
    ensures |r.calls| <= 1
    ensures r.calls == [] ==> r.result.Err? && r.driver.volumes == d.volumes && r.driver.target == d.target
    ensures r.calls != [] <==>
              DriverKey in requested
              && EnsurePluginRunning(cfg, d.mgr, d.dirs, requested[DriverKey], host).result.Ok?
    ensures r.calls != [] ==>
              var alias := requested[DriverKey];
              var merged := Merge(cfg.drivers[alias], requested);
              && r.driver.volumes == d.volumes[name := VolumeInfo(merged.options, merged.secrets, false)]
              && r.driver.target == SocketFor(cfg, alias)
              && r.calls == [Call(SocketFor(cfg, alias), CreateVolume(name, merged.options))]
    ensures r.calls == [] && DriverKey in requested ==> r.result.Err? && r.result.error.DriverUnavailable?
    ensures r.result.Ok? <==> r.calls != [] && backend(r.calls[0]).RpcOk?
    ensures r.result.Err? && r.calls != [] ==> r.result.error == Rpc(backend(r.calls[0]).status)
  {
    if DriverKey !in requested then Reply(d, Err(MissingDriverOption), [], [])
    else
      var alias := requested[DriverKey];
      var b := EnsurePluginRunning(cfg, d.mgr, d.dirs, alias, host);
      if b.result.Err? then
        Reply(d.(mgr := b.mgr, dirs := b.dirs), Err(DriverUnavailable(b.result.error)), b.actions, [])
      else
        var merged := Merge(cfg.drivers[alias], requested);
        var endpoint := SocketFor(cfg, alias);
        var volumes := d.volumes[name := VolumeInfo(merged.options, merged.secrets, false)];
        var call := Call(endpoint, CreateVolume(name, merged.options));
        Reply(VolumeDriver(volumes, b.mgr, b.dirs, endpoint), Completed(backend, call), b.actions, [call])
  }

  /** Remove: forget the volume, then ask the driver to delete it. */
  function Remove(d: VolumeDriver, name: string, backend: Backend): (r: Reply<()>)
    ensures name !in r.driver.volumes
    ensures r.driver == d.(volumes := r.driver.volumes)
    ensures forall n :: n != name ==> (n in r.driver.volumes <==> n in d.volumes)
    ensures forall n :: n in r.driver.volumes ==> r.driver.volumes[n] == d.volumes[n]
    ensures r.actions == [] && r.calls == [Call(d.target, DeleteVolume(name))]
    ensures r.result.Ok? <==> backend(r.calls[0]).RpcOk?
    ensures r.result.Err? ==> r.result.error == Rpc(backend(r.calls[0]).status)
  {
    var call := Call(d.target, DeleteVolume(name));
    Reply(d.(volumes := d.volumes - {name}), Completed(backend, call), [], [call])
  }

  function Get(d: VolumeDriver, name: string): (r: Result<Volume, Error>)
    ensures r.Ok? <==> name in d.volumes
    ensures r.Ok? ==> r.value == Volume(name, "")
    ensures r.Err? ==> r.error == VolumeDoesNotExist(name)
  {
    if name in d.volumes then Ok(Volume(name, "")) else Err(VolumeDoesNotExist(name))
  }

  /** List, as a set: Go's map iteration order is not modelled. */
  function List(d: VolumeDriver): (r: set<Volume>)
    ensures forall v :: v in r <==> v.name in d.volumes && v.mountpoint == ""
  {
    set n | n in d.volumes :: Volume(n, "")
  }

  /** Whether a call list contains a successful call of the given kind. */
  predicate Succeeded(calls: seq<Call>, backend: Backend, kind: Rpc) {
    exists i :: 0 <= i < |calls| && RpcOf(calls[i].request) == kind && backend(calls[i]).RpcOk?
  }

  /** Mount: stage the volume unless it is already staged, then publish it. */
  function Mount(d: VolumeDriver, name: string, backend: Backend): (r: Reply<string>)
    ensures r.actions == []
    ensures name !in d.volumes ==> r == Reply(d, Err(VolumeNotFound(name)), [], [])
    ensures r.driver == d.(volumes := r.driver.volumes)
    ensures r.driver.volumes.Keys == d.volumes.Keys
    ensures forall n :: n in d.volumes && n != name ==> r.driver.volumes[n] == d.volumes[n]
    ensures name in d.volumes ==> r.driver.volumes[name] == d.volumes[name].(mounted := r.driver.volumes[name].mounted)
    ensures r.result.Ok? ==> r.result.value == MountPoint(name)
  {
    if name !in d.volumes then Reply(d, Err(VolumeNotFound(name)), [], [])
    else
      var v := d.volumes[name];
      var stage := Call(d.target, NodeStageVolume(name, StagingPath(name), v.options, v.secrets));
      var publish := Call(d.target, NodePublishVolume(name, VolumeDir(name), v.options));
      if !v.mounted && backend(stage).RpcError? then
        Reply(d, Err(Rpc(backend(stage).status)), [], [stage])
      else
        var staged := if v.mounted then [] else [stage];
        var published := d.(volumes := d.volumes[name := v.(mounted := true)]);
        match Completed(backend, publish)
        case Ok(_) => Reply(published, Ok(MountPoint(name)), [], staged + [publish])
        case Err(e) => Reply(published, Err(e), [], staged + [publish])
  }

  /** Mount's calls: at most a stage and a publish, both about the volume
      and sent to the endpoint the client currently points at; a failure is
      the status of the last call, passed through. */
  lemma MountCalls(d: VolumeDriver, name: string, backend: Backend)
    ensures var r := Mount(d, name, backend);
      && |r.calls| <= 2
      && (forall i :: 0 <= i < |r.calls| ==> r.calls[i].endpoint == d.target && VolumeOf(r.calls[i].request) == name)
      && (r.result.Err? && name in d.volumes ==>
            |r.calls| > 0 && r.result.error.Rpc?
            && backend(r.calls[|r.calls| - 1]) == RpcError(r.result.error.status))
  {
    if name in d.volumes {
      var r := Mount(d, name, backend);
      var v := d.volumes[name];
      var stage := Call(d.target, NodeStageVolume(name, StagingPath(name), v.options, v.secrets));
      var publish := Call(d.target, NodePublishVolume(name, VolumeDir(name), v.options));
      assert VolumeOf(stage.request) == name && VolumeOf(publish.request) == name;
      if !v.mounted && backend(stage).RpcError? {
        assert r.calls == [stage];
      } else if v.mounted {
        assert r.calls == [publish];
      } else {
        assert r.calls == [stage, publish];
      }
    }
  }

  /** Mount's staging rules: NodeStageVolume is issued only while the volume
      is not staged, the staged flag is set only by a successful stage, a
      failed stage is never followed by a publish, and Mount succeeds exactly
      when its publish does. */
  lemma MountStagingRules(d: VolumeDriver, name: string, backend: Backend)
    ensures var r := Mount(d, name, backend);
      && (NodeStageRpc in Rpcs(r.calls) <==> name in d.volumes && !d.volumes[name].mounted)
      && (name in d.volumes ==>
            (r.driver.volumes[name].mounted <==>
               d.volumes[name].mounted || Succeeded(r.calls, backend, NodeStageRpc)))
      && (NodePublishRpc in Rpcs(r.calls) <==>
            name in d.volumes && (d.volumes[name].mounted || Succeeded(r.calls, backend, NodeStageRpc)))
      && (r.result.Ok? <==> Succeeded(r.calls, backend, NodePublishRpc))
  {
    var r := Mount(d, name, backend);
    if name in d.volumes {
      var v := d.volumes[name];
      var stage := Call(d.target, NodeStageVolume(name, StagingPath(name), v.options, v.secrets));
      var publish := Call(d.target, NodePublishVolume(name, VolumeDir(name), v.options));
      assert RpcOf(stage.request) == NodeStageRpc && RpcOf(publish.request) == NodePublishRpc;
      if v.mounted {
        assert r.calls == [publish] && r.driver.volumes[name].mounted;
        assert Rpcs(r.calls) == [NodePublishRpc];
        assert !Succeeded(r.calls, backend, NodeStageRpc);
        assert r.result.Ok? <==> backend(publish).RpcOk?;
      } else if backend(stage).RpcError? {
        assert r.calls == [stage] && r.result.Err? && !r.driver.volumes[name].mounted;
        assert Rpcs(r.calls) == [NodeStageRpc];
        assert !Succeeded(r.calls, backend, NodeStageRpc);
        assert !Succeeded(r.calls, backend, NodePublishRpc);
      } else {
        assert r.calls == [stage, publish] && r.driver.volumes[name].mounted;
        assert Rpcs(r.calls) == [NodeStageRpc, NodePublishRpc];
        assert Succeeded(r.calls, backend, NodeStageRpc);
        assert r.result.Ok? <==> backend(publish).RpcOk?;
        assert Succeeded(r.calls, backend, NodePublishRpc) <==> backend(publish).RpcOk?;
      }
    } else {
      assert r.calls == [];
    }
  }

  /** The requests Mount sends: the stage carries the volume's merged options
      and secrets and targets the staging directory, which is exactly the
      staging path the client derives for the publish from the volume's
      directory; the publish targets the mount point. */
  lemma MountRequests(d: VolumeDriver, name: string, backend: Backend)
    requires name in d.volumes
    ensures var r := Mount(d, name, backend);
      var v := d.volumes[name];
      && (forall i :: 0 <= i < |r.calls| && r.calls[i].request.NodeStageVolumeRequest? ==>
            r.calls[i].request == NodeStageVolume(name, StagingPath(name), v.options, v.secrets))
      && (forall i :: 0 <= i < |r.calls| && r.calls[i].request.NodePublishVolumeRequest? ==>
            && r.calls[i].request == NodePublishVolume(name, VolumeDir(name), v.options)
            && r.calls[i].request.targetPath == MountPoint(name)
            && r.calls[i].request.stagingTargetPath == StagingPath(name))
  {
  }

  /** Unmount: unpublish at the volume's directory; the registry is untouched. */
  function Unmount(d: VolumeDriver, name: string, backend: Backend): (r: Reply<()>)
    ensures r.driver == d && r.actions == []
    ensures r.calls == [Call(d.target, NodeUnpublishVolume(name, VolumeDir(name)))]
    ensures r.result.Ok? <==> backend(r.calls[0]).RpcOk?
    ensures r.result.Err? ==> r.result.error == Rpc(backend(r.calls[0]).status)
  {
    var call := Call(d.target, NodeUnpublishVolume(name, VolumeDir(name)));
    Reply(d, Completed(backend, call), [], [call])
  }

  /** Path reports a fixed per-name location whether or not the volume exists. */
  function Path(name: string): (r: string)
    ensures PathRoot <= r && EndsWith(r, name)
    ensures |r| == |PathRoot| + |name|
  {
    PathRoot + name
  }

  function Capabilities(): (c: Capability)
    ensures c.scope == "local"
  {
    Capability("local")
  }

}

=== FILE: results.dfy ===
/** Success/failure values shared by every module of the model. */
module Results {

  /** Either a value or the error that prevented it (Go's `(T, error)` pair). */
  datatype Result<+T, +E> = Ok(value: T) | Err(error: E)

}
